=== FILE: README.md ===
# r2-uploader: the presigned-upload protocol in Dafny

This project models the protocol at the heart of r2-uploader, a small
Cloudflare Pages application. It lets a browser that knows a shared password
upload images straight to an R2 bucket through short-lived presigned PUT URLs.
Five pieces are modelled as pure functions over immutable datatypes:

- **Credential gate** (`AuthGate`, functions/api/auth.ts). `POST /api/auth`
  checks, in this order: the `AUTH_PASSWORD` setting, the parse of the body,
  the shape of `password`, and exact equality. `GET` answers 405.
- **Presign issuer** (`PresignIssuer`, functions/api/r2presign.ts).
  `POST /api/r2presign` checks, in order: the six R2 settings, the body parse,
  the `fileName` and `contentType` fields, and the `image/` allowlist. Then it
  asks the signer for a 300-second PUT URL for key `fileName` and returns the
  URL together with `PUBLIC_IMAGE_DOMAIN + "/" + key`.
- **Per-file upload** (`R2Service`, src/services/r2Service.ts).
  `uploadToR2` runs the client-side type check, accepts or refuses the
  presign answer, reports progress 50 and then 100, and builds the
  transfer-error text and its two layers of wrapping. On success it builds the
  `UploadedFile`.
- **Batch orchestrator** (`UploadBatch`, src/hooks/useUpload.ts).
  `uploadFiles` uploads the files one at a time and stops at the first failure.
  It writes the sequence of hook states and computes the progress formula. On
  success it appends to the history; on failure it reports all-or-nothing.
  `clearRecentUploads` is modelled too.
- **Session authorization** (`AuthSession`, src/hooks/useAuth.ts). This covers
  the initial state, the restore of the `is_authenticated` session-storage flag
  at mount, `login` and `logout`. A lemma shows that in every reachable state
  an authenticated hook is always backed by the stored flag 'true'.

`EndToEnd` connects the client to the two handlers. Logging in against the
gate unlocks the session exactly when the password matches. An image uploaded
through the issuer gets its own name as id and `domain/name` as URL.

Shared pieces: `Common` holds option and result types, thrown values, and the
string operations `startsWith`, `includes`, `substring(0, n)` and decimal
interpolation. `Types` mirrors src/types/index.ts: `UploadedFile`, `AuthState`
and `UploadState`. `Http` holds request-body fields, parse outcomes, reply
payloads and `Response.ok`.

How the environment is represented:
- `request.json()` becomes `Parsed`. It is `Malformed` when parsing throws.
  It is `JsonNull` when the body is JSON `null`, whose destructuring then throws
  inside the handler's outer `try`. Otherwise it is `Json(value)`.
- A field read from a body is `Missing`, `NotText` or `Text(s)`.
- `getSignedUrl` is a function parameter `sign` that may return a URL or throw.
  The signer is consulted only after `Validate` has accepted the request.
- Each `fetch` seen by the client is an abstract answer (`PresignCall`,
  `TransferCall`, `LoginCall`): either a thrown value, or an `ok` flag, a
  status and a parsed body. A string field that is absent or empty is `""`,
  because both are falsy in the source's checks.
- The progress callback is recorded as the list of values passed to it. The
  clock (`new Date()`) is a parameter `now`. One reading stamps every file of
  a batch, whereas src/services/r2Service.ts:83 reads the clock once per file.
  `sessionStorage` is a field of the session state.

Behaviours of the code worth knowing:
- The object key is always the file name. No disambiguation is done, so two
  uploads of the same name overwrite each other.
- An empty batch is a no-op that returns `undefined`, not an error.
- The storage provider's error body is appended only when it contains
  `<Code>`.
- A refused PUT is wrapped twice ("Upload failed: Upload failed with
  status: …").
- `onProgress(100)` is called before the PUT's status is checked. So a batch
  whose only file is refused ends with the bar at 100 next to the error
  (`UploadBatch.RefusedTransferStillShowsFullBar`).
- `R2_PUBLIC_DOMAIN` must be set but is never used
  (`PresignIssuer.R2PublicDomainOnlyGates`).

## Model

| member | source | states |
|---|---|---|
| AuthGate.OnRequestPost | functions/api/auth.ts:14-70 | every POST answer has a JSON body and status 200/400/401/500; a missing or empty secret gives 500 before the body is read; a body that fails to parse gives 400 "Invalid request body."; a JSON `null` body gives 500 "An internal server error occurred."; a missing, non-string or empty password gives 400 "Password is required."; 200 `{success:true}` exactly when the password equals the secret with no normalisation; 401 "Invalid password." exactly for every other non-empty password |
| AuthGate.OnRequestGet | functions/api/auth.ts:73-75 | GET answers 405 with no body, which no POST answer equals |
| PresignIssuer.PublicUrl | functions/api/r2presign.ts:87 | the public URL starts with the configured domain and ends with "/" followed by the key, with nothing else in between |
| PresignIssuer.SignRequestFor | functions/api/r2presign.ts:75-96 | the signer is asked for a PUT of key = file name, with the declared content type, in the configured bucket, with the configured credentials, in region "auto", on exactly the account's endpoint "https://" + account id + ".r2.cloudflarestorage.com", valid for 300 seconds |
| PresignIssuer.Validate | functions/api/r2presign.ts:38-87 | the checks run in source order: any of the six settings missing or empty gives 500 "Server configuration error (R2)."; a failed parse gives 400 "Invalid request body."; a JSON `null` body gives 500 with the signing-error prefix; a missing, non-string or empty fileName or contentType gives 400 "fileName and contentType are required."; a content type without the case-sensitive `image/` prefix gives 400 "Only image files are allowed."; a request passes exactly when none of these applies, and then the key is the file name and the public URL is domain + "/" + key |
| PresignIssuer.OnRequestPost | functions/api/r2presign.ts:24-117 | a rejected request is answered without consulting the signer; 200 exactly when validation passes and signing succeeds, and then the body carries the signer's URL for a 300-second PUT of key = fileName, publicUrl = domain + "/" + fileName, and key = fileName; a signing exception gives 500 "Failed to generate presigned URL: " + its message |
| PresignIssuer.OnRequestGet | functions/api/r2presign.ts:120-122 | GET answers 405 with no body, which no POST answer equals |
| PresignIssuer.R2PublicDomainOnlyGates | functions/api/r2presign.ts:38-96 | the value of `R2_PUBLIC_DOMAIN` does not affect any reply once it is non-empty |
| R2Service.PresignFailureMessage | src/services/r2Service.ts:32-39 | a refused presign answer is reported as "Failed to prepare upload: " + the server's error, or else + the status fallback "Failed to get presigned URL (Status: N)"; a thrown Error gives "Failed to prepare upload: " + its message (so a presign network failure never yields the network message); a thrown non-Error gives the bare "Failed to prepare upload" |
| R2Service.TransferErrorText | src/services/r2Service.ts:62-68 | the message starts with "Upload failed with status: N"; something is appended exactly when the body was read and contains `<Code>`, and then what follows the status line is exactly " - R2 Error: " followed by the first 200 characters of the body (separator, suffix and total length are all fixed) |
| R2Service.UploadFailureMessage | src/services/r2Service.ts:85-94 | an Error whose message contains "NetworkError" or "Failed to fetch" becomes the fixed network message, any other Error becomes "Upload failed: " + message, and a non-Error gives the fixed unexpected-error text |
| R2Service.UploadToR2 | src/services/r2Service.ts:8-96 | a non-image file fails with "Only image files are allowed" before any request; a refused presign answer fails before any transfer; the progress callback sees 50 then 100, or a prefix of that; success exactly when the type passes, the presign answer is ok with success and non-empty URL, public URL and key, and the PUT is ok; a PUT whose fetch throws ends with the outer catch's message for that exception (the network message for "Failed to fetch"), and a refused PUT with the outer catch's message for the status error; on success id = key, url = publicUrl, and name, size and type are copied from the file |
| R2Service.OuterCatchKeepsPrefix | src/services/r2Service.ts:85-94 | the outer catch puts "Upload failed: " in front of any message it does not turn into the network message, so a prefix the message had is kept behind it |
| R2Service.RejectedTransferIsWrappedTwice | src/services/r2Service.ts:60-92 | a PUT refused with status N ends with the network message or a message starting "Upload failed: Upload failed with status: N" |
| Common.Truncate | src/services/r2Service.ts:67 | `substring(0, n)` returns a prefix of at most n characters, the whole string when it is short enough and exactly n characters otherwise |
| Common.ContainsIffOccurs | src/services/r2Service.ts:66 | the left-to-right `includes` scan holds exactly when the pattern occurs at some index |
| Common.NatToString | src/services/r2Service.ts:62 | interpolating a status gives a non-empty string of decimal digits with no leading zero |
| Common.DecimalRoundTrip | src/services/r2Service.ts:34 | the status interpolated into a message reads back as the same number |
| UploadBatch.InitialState | src/hooks/useUpload.ts:6-12 | the hook starts idle, at progress 0, with no error and empty history and recent uploads |
| UploadBatch.RoundDivIsNearest | src/hooks/useUpload.ts:35 | `Math.round(a / n)` is the integer r with r - 1/2 <= a/n < r + 1/2 |
| UploadBatch.RoundDivMonotone | src/hooks/useUpload.ts:42 | rounding preserves order, so larger shares never show a smaller percentage |
| UploadBatch.RoundDivWhole | src/hooks/useUpload.ts:32-42 | a whole number of shares rounds to itself, so the share of all n files is exactly 100 and no value written in the loop exceeds it |
| UploadBatch.FileProgressSteps | src/hooks/useUpload.ts:32-43 | while file i of n uploads and reports 50 then 100 (or a prefix of that), the values written never decrease and stay between file i's start share round(100i/n) and file i+1's start share round(100(i+1)/n) |
| UploadBatch.Started | src/hooks/useUpload.ts:17-22 | starting a batch sets isUploading, progress 0 and no error, and keeps files and recent uploads |
| UploadBatch.UploadFiles | src/hooks/useUpload.ts:14-77 | an empty batch changes nothing and returns undefined; otherwise the first state is the start state, only the progress changes until the last state, and the last state is not uploading; the reset timer is scheduled exactly on success; on success the final state is progress 100, no error, files = old files ++ new files and recent uploads = new files; on failure the error is set and files and recent uploads keep their values from before the batch |
| UploadBatch.ResetProgress | src/hooks/useUpload.ts:60-66 | the delayed reset sets the bar to 0 and changes no other field |
| UploadBatch.ClearRecentUploads | src/hooks/useUpload.ts:79-84 | recent uploads become empty and every other field is unchanged |
| UploadBatch.LoopSucceedsIffAll | src/hooks/useUpload.ts:28-50 | the loop succeeds exactly when every file's own upload succeeds, and then collects exactly their files, in input order |
| UploadBatch.LoopFailsAtFirst | src/hooks/useUpload.ts:28-50 | a failed loop carries the error of a file before which every file succeeded |
| UploadBatch.LoopStopsAtFirstFailure | src/hooks/useUpload.ts:27-50 | the loop ends at the first failing file: two sequences of runs that agree up to and including it give the same trace and result, and that result is the failing file's error |
| UploadBatch.LoopTrace | src/hooks/useUpload.ts:32-44 | the progress values written by the loop start at the first file's share, never decrease, and stay within [round(100·done/n), 100] |
| UploadBatch.LoopTraceOfSuccess | src/hooks/useUpload.ts:28-50 | when every file uploads, the loop writes three values per file, in order: round(100i/n), round((100i + 50)/n) and round((100i + 100)/n) |
| UploadBatch.BatchSucceedsIffEveryFileDoes | src/hooks/useUpload.ts:28-68 | a batch returns its new files exactly when every file uploads, and then the new files are the per-file results in input order |
| UploadBatch.BatchReportsFirstFailure | src/hooks/useUpload.ts:69-76 | a failed batch records the error of the first failing file, every earlier file having succeeded |
| UploadBatch.FailedBatchIgnoresLaterFiles | src/hooks/useUpload.ts:27-76 | a batch stops at its first failing file: the files after it are never sent, so whatever the network would have answered for them, every state written, the returned null and the recorded error (the failing file's) are the same |
| UploadBatch.BatchStatesFollowTrace | src/hooks/useUpload.ts:17-58 | a batch writes the start state, then one state per progress value of the loop in the loop's order, then the final state |
| UploadBatch.SuccessfulBatchShowsEachShare | src/hooks/useUpload.ts:28-58 | in a successful batch of n files the bar shows, for file k, round(100k/n) when it starts, round((100k + 50)/n) when half of it is sent and round(100(k+1)/n) when all of it is sent: files done plus the in-flight fraction; 3n + 2 states in all |
| UploadBatch.BatchProgressNeverDecreases | src/hooks/useUpload.ts:17-57 | across every state of a batch the progress stays within 0..100 and never decreases, ending at 100 on success |
| UploadBatch.RefusedTransferStillShowsFullBar | src/services/r2Service.ts:58-60 | because 100 is reported before the status is checked, a one-file batch whose PUT is refused ends with the bar at 100 and the error set |
| AuthSession.Initial | src/hooks/useAuth.ts:6-10 | the hook starts unauthenticated, with no error and not loading |
| AuthSession.Restore | src/hooks/useAuth.ts:13-21 | a stored flag exactly equal to 'true' restores the authenticated state with no error; any other flag changes nothing |
| AuthSession.RefusalMessage | src/hooks/useAuth.ts:48 | a refusal shows the server's error when there is one, otherwise exactly "Authentication failed (Status: N)", whose digits read back as the status N |
| AuthSession.Login | src/hooks/useAuth.ts:23-65 | login first shows loading with the error cleared; it returns true exactly when the response is ok and says success, and then sets the stored flag, authenticates and clears the error; otherwise it is unauthenticated with the server's error, the status fallback, "Network or server error: " + message, or the fixed retry text, and the stored flag is untouched; every path ends not loading |
| AuthSession.Logout | src/hooks/useAuth.ts:67-73 | logout removes the stored flag, unauthenticates and clears the error |
| AuthSession.ReachableSessionsAreSettled | src/hooks/useAuth.ts:6-73 | from the initial state, any sequence of mounts, logins and logouts leaves no login in flight and an authenticated hook always backed by the stored flag 'true' |
| AuthSession.FailedLoginKeepsStoredFlag | src/hooks/useAuth.ts:46-64 | a failed login leaves an earlier 'true' flag in storage while the hook shows the session locked |
| EndToEnd.LoginCallFor | src/hooks/useAuth.ts:27-37 | the client reads a gate reply as answered, with `ok` exactly for 2xx statuses and `success` as the body says |
| EndToEnd.PresignCallFor | src/services/r2Service.ts:19-30 | the client reads an issuer reply as answered, with `ok` exactly for 2xx statuses and the grant's key and URLs carried over |
| EndToEnd.LoginUnlocksIffPasswordMatches | functions/api/auth.ts:19-62 | logging in against the gate returns true exactly when the secret is configured and the password equals it; otherwise the user sees the gate's configuration, required-password or invalid-password message |
| EndToEnd.UploadThroughIssuer | functions/api/r2presign.ts:86-104 | an image uploaded through the issuer succeeds exactly when the server is configured, the name is non-empty, signing yields a non-empty URL and the PUT is ok; it then has id = its name and url = domain + "/" + name; a non-200 issuer reply surfaces as "Failed to prepare upload: " + the issuer's error |

## Left out

- React rendering, drag and drop, clipboard handling and `formatFileSize`
  (src/components/, src/App.tsx). They are presentation, and
  `formatFileSize` relies on floating-point `toFixed`.
- AWS Signature Version 4 presigning (`S3Client`, `getSignedUrl`). It is a
  foreign library, modelled as the parameter `sign`. Only its inputs and its
  success or exception are modelled.
- `fetch`, JSON parsing and `Response` objects. They are reduced to abstract
  answers, as described above. The bytes of a file are not modelled.
- `console` logging, `setTimeout` timing, `Date` values and `sessionStorage`
  as an API. The timed reset is the separate event `ResetProgress`. The clock
  is a parameter. The storage entry is a field of the session.
- React's asynchronous state batching and interleaving. Every state update is
  one atomic step. A second `uploadFiles` or `login` started while one is in
  flight is not modelled.
- The two setters at the start of `login` (`setIsLoading(true)` and the error
  reset) are one state in the model.
- UploadBatch.RoundDivIsNearest: `Math.round(progressPerFile * i)` is
  computed (by `UploadBatch.RoundDiv`) on exact rationals with halves rounded up. IEEE-754 rounding of `100 / n`
  could differ by one at exact half-way points.
- UploadBatch.BatchProgressNeverDecreases: holds only while no reset timer of
  an earlier batch is pending. In the source the 2-second timer
  (src/hooks/useUpload.ts:61-66) sets the progress to 0 whatever is running, and
  a new batch can start before it fires. A two-file batch started within 2 s of
  a successful one can then show 0, 25, 50, 0, 50, 75, 100. The model treats
  `ResetProgress` as a separate event that never interleaves with a batch.
- UploadBatch.UploadFiles: the network's answers for the batch are one
  `Exchange` per file, so the model requires as many answers as files. The
  answers for files after the first failure are never consulted. One clock
  reading `now` stamps every file of the batch, while the source reads the
  clock once per file.
- Common.Truncate: JavaScript strings are UTF-16. The model counts characters,
  which matches `substring` only when there are no surrogate pairs.
- A handler exception other than the JSON `null` destructuring (for example
  from constructing `S3Client`) is not modelled. With these inputs the source
  raises none.

=== FILE: auth_gate.dfy ===
/** The credential gate behind `POST /api/auth`: a stateless check of a
    submitted password against the `AUTH_PASSWORD` setting. */
module AuthGate {
  import opened Common
  import opened Http

  const ConfigMissing: string :=
    "Server configuration error. AUTH_PASSWORD environment variable is not set in Cloudflare."
  const PasswordRequired: string := "Password is required."
  const WrongPassword: string := "Invalid password."
  const InternalError: string := "An internal server error occurred."

  /** The POST handler. `secret` is the `AUTH_PASSWORD` setting and `body`
      the outcome of parsing the request, whose one field of interest is
      `password`. The checks run in a fixed order: configuration, parsing,
      shape of the password, comparison. */
  function OnRequestPost(secret: Option<string>, body: Parsed<Field>): (r: Reply)
    // every POST answer carries a JSON body, whose `success` agrees with 200
    ensures r.body.Some? && r.status in {200, 400, 401, 500}
    ensures r.status == 200 <==> r.body.value.Success()
    // a missing setting is reported before the body is looked at
    ensures !Truthy(secret) ==> r == Fail(500, ConfigMissing)
    ensures Truthy(secret) && body.Malformed? ==> r == Fail(400, InvalidRequestBody)
    ensures Truthy(secret) && body.JsonNull? ==> r == Fail(500, InternalError)
    ensures Truthy(secret) && body.Json? && !Filled(body.value) ==> r == Fail(400, PasswordRequired)
    // success exactly when the password equals the secret, character for character
    ensures r.status == 200 <==> Truthy(secret) && body == Json(Text(secret.value))
    ensures r.status == 200 ==> r == Reply(200, Some(Accepted))
    // any other well-formed password is refused
    ensures r.status == 401 <==>
      Truthy(secret) && body.Json? && Filled(body.value) && body.value.text != secret.value
    ensures r.status == 401 ==> r == Fail(401, WrongPassword)
  {
    if !Truthy(secret) then Fail(500, ConfigMissing)
    else match body
      case Malformed => Fail(400, InvalidRequestBody)
      case JsonNull(_) => Fail(500, InternalError)
      case Json(password) =>
        if !Filled(password) then Fail(400, PasswordRequired)
        else if password.text == secret.value then Reply(200, Some(Accepted))
        else Fail(401, WrongPassword)
  }

  /** The GET handler: 405 with no body, whatever the configuration. */
  function OnRequestGet(secret: Option<string>): (r: Reply)
    ensures r.status == MethodNotAllowedStatus && r.body.None?
    ensures forall body: Parsed<Field> :: r != OnRequestPost(secret, body)
  {
    Reply(MethodNotAllowedStatus, None)
  }
}

=== FILE: auth_session.dfy ===
/** The client's session authorization (`useAuth`): the `AuthState`, the
    loading flag, and the `is_authenticated` entry of the browser's session
    storage, driven by mounting, login attempts and logout. */
module AuthSession {
  import opened Common
  import opened Types

  /** The hook's state together with the session-storage entry it uses. */
  datatype Session = Session(auth: AuthState, isLoading: bool, storedFlag: Option<string>)

  /** The auth endpoint's JSON as the client reads it; an absent or empty
      `error` is `""`. */
  datatype LoginData = LoginData(success: bool, error: string)

  /** The login round trip: `fetch` or `json()` threw, or a response
      arrived with its `ok` flag, status and body. */
  datatype LoginCall =
    | LoginThrew(thrown: Thrown)
    | LoginAnswered(ok: bool, status: nat, data: LoginData)

  /** The states written by one `login` call, and the boolean it returns. */
  datatype LoginRun = LoginRun(states: seq<Session>, returned: bool)

  const FlagValue: string := "true"
  const StatusFallback: string := "Authentication failed (Status: "
  const NetworkPrefix: string := "Network or server error: "
  const RetryMessage: string := "Authentication failed. Please try again."

  /** The state before the mount effect has run, with `stored` the
      session-storage entry found at that moment. */
  function Initial(stored: Option<string>): (s: Session)
    ensures !s.auth.isAuthenticated && s.auth.error.None?
    ensures !s.isLoading && s.storedFlag == stored
  {
    Session(AuthState(false, None), false, stored)
  }

  /** The mount effect: an entry equal to exactly `'true'` unlocks the
      session; anything else leaves the state as it is. */
  function Restore(s: Session): (r: Session)
    ensures s.storedFlag == Some(FlagValue) ==> r.auth == AuthState(true, None)
    ensures s.storedFlag != Some(FlagValue) ==> r == s
    ensures r.isLoading == s.isLoading && r.storedFlag == s.storedFlag
  {
    if s.storedFlag == Some(FlagValue) then s.(auth := AuthState(true, None)) else s
  }

  /** The error shown after a response that is not a success. */
  function RefusalMessage(status: nat, data: LoginData): (m: string)
    ensures m != ""
    ensures data.error != "" ==> m == data.error
    ensures data.error == "" ==> m == StatusFallback + NatToString(status) + ")"
    // the fallback names the status: the digits between the prefix and ")"
    // read back as the status
    ensures data.error == "" ==>
      && |StatusFallback| < |m| && m[|m| - 1] == ')'
      && (forall i :: |StatusFallback| <= i < |m| - 1 ==> IsDigit(m[i]))
      && ParseDecimal(m[|StatusFallback|..|m| - 1]) == status
  {
    if data.error != "" then data.error
    else
      var digits := NatToString(status);
      var m := StatusFallback + digits + ")";
      assert m[|StatusFallback|..|m| - 1] == digits;
      DecimalRoundTrip(status);
      m
  }

  /** `login(password)`, the answer to the request being `call`. */
  function Login(s: Session, call: LoginCall): (r: LoginRun)
    // first the spinner starts and the old error is cleared, then one final state
    ensures |r.states| == 2
    ensures r.states[0] == s.(auth := s.auth.(error := None), isLoading := true)
    ensures !r.states[1].isLoading
    // success exactly when the response is ok and says so
    ensures r.returned <==> call.LoginAnswered? && call.ok && call.data.success
    ensures r.returned <==> r.states[1].auth.isAuthenticated
    ensures r.returned ==>
      r.states[1] == Session(AuthState(true, None), false, Some(FlagValue))
    // a failure leaves the session locked with an error, the entry untouched
    ensures !r.returned ==>
      && r.states[1].auth.error.Some? && r.states[1].auth.error.value != ""
      && r.states[1].storedFlag == s.storedFlag
    ensures call.LoginAnswered? && !r.returned ==>
      r.states[1].auth.error == Some(RefusalMessage(call.status, call.data))
    ensures call.LoginThrew? && call.thrown.ErrorWith? ==>
      r.states[1].auth.error == Some(NetworkPrefix + call.thrown.message)
    ensures call == LoginThrew(NotAnError) ==> r.states[1].auth.error == Some(RetryMessage)
  {
    var pending := s.(auth := s.auth.(error := None), isLoading := true);
    match call
    case LoginAnswered(ok, status, data) =>
      if ok && data.success then
        LoginRun([pending, Session(AuthState(true, None), false, Some(FlagValue))], true)
      else
        LoginRun([pending, pending.(auth := AuthState(false, Some(RefusalMessage(status, data))),
                                    isLoading := false)], false)
    case LoginThrew(ErrorWith(e)) =>
      LoginRun([pending, pending.(auth := AuthState(false, Some(NetworkPrefix + e)),
                                  isLoading := false)], false)
    case LoginThrew(NotAnError) =>
      LoginRun([pending, pending.(auth := AuthState(false, Some(RetryMessage)),
                                  isLoading := false)], false)
  }

  /** `logout`: the entry is removed and the session locked. */
  function Logout(s: Session): (r: Session)
    ensures r.auth == AuthState(false, None) && r.storedFlag.None?
    ensures r.isLoading == s.isLoading
  {
    Session(AuthState(false, None), s.isLoading, None)
  }

  /** What can happen to a mounted session. */
  datatype Event = Mount | LoginAttempt(call: LoginCall) | LogOut

  function Step(s: Session, e: Event): Session
  {
    match e
    case Mount => Restore(s)
    case LoginAttempt(call) => Login(s, call).states[1]
    case LogOut => Logout(s)
  }

  function Replay(s: Session, events: seq<Event>): Session
    decreases |events|
  {
    if |events| == 0 then s else Replay(Step(s, events[0]), events[1..])
  }

  /** A settled session: no login in flight, and an unlocked session is
      always backed by the stored entry `'true'`. */
  predicate Settled(s: Session)
  {
    !s.isLoading && (s.auth.isAuthenticated ==> s.storedFlag == Some(FlagValue))
  }

  lemma StepKeepsSettled(s: Session, e: Event)
    requires Settled(s)
    ensures Settled(Step(s, e))
  {
  }

  /** Every session reached from the initial state by any sequence of
      events is settled: whenever the hook says authenticated, a reload
      would say so too. */
  lemma {:induction false} ReachableSessionsAreSettled(stored: Option<string>, events: seq<Event>)
    ensures Settled(Replay(Initial(stored), events))
  {
    ReplayKeepsSettled(Initial(stored), events);
  }

  lemma {:induction false} ReplayKeepsSettled(s: Session, events: seq<Event>)
    requires Settled(s)
    ensures Settled(Replay(s, events))
    decreases |events|
  {
    if |events| > 0 {
      StepKeepsSettled(s, events[0]);
      ReplayKeepsSettled(Step(s, events[0]), events[1..]);
    }
  }

  /** The converse does not hold: a failed login leaves an earlier `'true'`
      entry in place while the hook shows the session locked. */
  lemma FailedLoginKeepsStoredFlag(s: Session, call: LoginCall)
    requires s.storedFlag == Some(FlagValue)
    requires !(call.LoginAnswered? && call.ok && call.data.success)
    ensures var after := Login(s, call).states[1];
      !after.auth.isAuthenticated && after.storedFlag == Some(FlagValue)
  {
  }
}

=== FILE: common.dfy ===
/** Small building blocks shared by every part of the upload protocol:
    optional values, results, thrown JavaScript values, and the handful of
    string operations the TypeScript code uses (`startsWith`, `includes`,
    `substring(0, n)` and number-to-string interpolation). */
module Common {

  /** A value that may be absent (`undefined`/`null` in the source). */
  datatype Option<+T> = None | Some(value: T)

  /** Either a value or an error. */
  datatype Result<+T, +E> = Ok(value: T) | Err(error: E)

  /** Whatever a `catch` clause receives: an `Error` object, whose message
      the source reads, or any other thrown value. */
  datatype Thrown = ErrorWith(message: string) | NotAnError

  /** JavaScript truthiness of an optional string: present and non-empty. */
  predicate Truthy(v: Option<string>)
  {
    v.Some? && v.value != ""
  }

  /** `s.startsWith(prefix)`, case-sensitive. */
  predicate StartsWith(s: string, prefix: string)
  {
    |prefix| <= |s| && s[..|prefix|] == prefix
  }

  lemma PrefixOfConcat(a: string, b: string)
    ensures StartsWith(a + b, a)
  {
    assert (a + b)[..|a|] == a;
  }

  /** Putting the same text in front keeps a prefix a prefix. */
  lemma PrefixUnderSameHead(head: string, s: string, prefix: string)
    requires StartsWith(s, prefix)
    ensures StartsWith(head + s, head + prefix)
  {
    assert (head + s)[..|head + prefix|] == head + s[..|prefix|];
  }

  /** `s.endsWith(suffix)`. */
  predicate EndsWith(s: string, suffix: string)
  {
    |suffix| <= |s| && s[|s| - |suffix|..] == suffix
  }

  /** `sub` occurs in `s` starting at index `i`. */
  predicate OccursAt(s: string, sub: string, i: nat)
  {
    i + |sub| <= |s| && s[i..i + |sub|] == sub
  }

  /** `s.includes(sub)`, scanning from the left. */
  predicate Contains(s: string, sub: string)
    decreases |s|
  {
    StartsWith(s, sub) || (|s| > 0 && Contains(s[1..], sub))
  }

  /** The scan agrees with the textbook definition of substring search. */
  lemma {:induction false} ContainsIffOccurs(s: string, sub: string)
    ensures Contains(s, sub) <==> exists i: nat :: OccursAt(s, sub, i)
    decreases |s|
  {
    if StartsWith(s, sub) {
      assert OccursAt(s, sub, 0);
    } else if |s| == 0 {
    } else {
      ContainsIffOccurs(s[1..], sub);
      if Contains(s[1..], sub) {
        var i: nat :| OccursAt(s[1..], sub, i);
        assert s[1..][i..i + |sub|] == s[i + 1..i + 1 + |sub|];
        assert OccursAt(s, sub, i + 1);
      } else {
        if i: nat :| OccursAt(s, sub, i) {
          assert i != 0;
          assert s[1..][i - 1..i - 1 + |sub|] == s[i..i + |sub|];
          assert OccursAt(s[1..], sub, i - 1);
          assert false;
        }
      }
    }
  }

  /** `s.substring(0, n)`: the first `n` characters, or all of `s` if it is shorter. */
  function Truncate(s: string, n: nat): (r: string)
    ensures |r| <= n && |r| <= |s|
    ensures StartsWith(s, r)
    ensures |s| <= n ==> r == s
    ensures |s| > n ==> |r| == n
  {
    if |s| <= n then s else s[..n]
  }

  predicate IsDigit(c: char)
  {
    '0' <= c <= '9'
  }

  function DigitChar(d: nat): (c: char)
    requires d < 10
    ensures IsDigit(c)
    ensures c as int - '0' as int == d
  {
    ('0' as int + d) as char
  }

  function DigitValue(c: char): nat
    requires IsDigit(c)
  {
    c as int - '0' as int
  }

  /** Template-literal interpolation `${n}` of a non-negative integer:
      its shortest decimal spelling. */
  function NatToString(n: nat): (r: string)
    ensures |r| >= 1
    ensures forall i :: 0 <= i < |r| ==> IsDigit(r[i])
    ensures n >= 10 ==> r[0] != '0'
    decreases n
  {
    if n < 10 then [DigitChar(n)] else NatToString(n / 10) + [DigitChar(n % 10)]
  }

  /** Reads a decimal spelling back; the partner of `NatToString`. */
  function ParseDecimal(s: string): nat
    requires forall i :: 0 <= i < |s| ==> IsDigit(s[i])
    decreases |s|
  {
    if |s| == 0 then 0
    else ParseDecimal(s[..|s| - 1]) * 10 + DigitValue(s[|s| - 1])
  }

  /** The status code interpolated into a message can be read back exactly. */
  lemma {:induction false} DecimalRoundTrip(n: nat)
    ensures ParseDecimal(NatToString(n)) == n
    decreases n
  {
    if n >= 10 {
      var s := NatToString(n);
      assert s[..|s| - 1] == NatToString(n / 10);
      DecimalRoundTrip(n / 10);
    }
  }
}

=== FILE: end_to_end.dfy ===
/** The client and the two endpoints put together: the client's view of a
    reply is derived from what the handler answered, so properties of the
    whole round trip can be stated. */
module EndToEnd {
  import opened Common
  import opened Types
  import opened Http
  import AuthGate
  import PresignIssuer
  import opened R2Service
  import opened AuthSession

  /** The error string a client reads from a reply body (`""` when absent). */
  function ErrorText(p: Payload): string
  {
    if p.Rejected? then p.error else ""
  }

  /** How `login` sees a reply of the auth endpoint. */
  function LoginCallFor(reply: Reply): (call: LoginCall)
    requires reply.body.Some?
    ensures call.LoginAnswered? && call.status == reply.status
    ensures call.ok <==> IsOk(reply.status)
    ensures call.data.success <==> reply.body.value.Success()
  {
    LoginAnswered(IsOk(reply.status), reply.status,
                  LoginData(reply.body.value.Success(), ErrorText(reply.body.value)))
  }

  /** How `uploadToR2` sees a reply of the presign endpoint. */
  function PresignCallFor(reply: Reply): (call: PresignCall)
    requires reply.body.Some?
    ensures call.PresignAnswered? && call.status == reply.status
    ensures call.ok <==> IsOk(reply.status)
    ensures reply.body.value.Grant? ==>
      && call.data.key == reply.body.value.key
      && call.data.publicUrl == reply.body.value.publicUrl
      && call.data.presignedUrl == reply.body.value.presignedUrl
  {
    var p := reply.body.value;
    var data := match p
      case Grant(presignedUrl, publicUrl, key) => PresignData(true, presignedUrl, publicUrl, key, "")
      case Accepted => PresignData(true, "", "", "", "")
      case Rejected(e) => PresignData(false, "", "", "", e);
    PresignAnswered(IsOk(reply.status), reply.status, data)
  }

  /** Logging in against the gate unlocks the session exactly when the
      typed password equals the configured one; otherwise the gate's
      message is what the user sees. */
  lemma LoginUnlocksIffPasswordMatches(s: Session, secret: Option<string>, password: string)
    ensures var reply := AuthGate.OnRequestPost(secret, Json(Text(password)));
      var after := Login(s, LoginCallFor(reply));
      && (after.returned <==> Truthy(secret) && password == secret.value)
      && (!Truthy(secret) ==> after.states[1].auth.error == Some(AuthGate.ConfigMissing))
      && (Truthy(secret) && password == "" ==>
            after.states[1].auth.error == Some(AuthGate.PasswordRequired))
      && (Truthy(secret) && password != "" && password != secret.value ==>
            after.states[1].auth.error == Some(AuthGate.WrongPassword))
  {
  }

  /** Uploading one image through the issuer: the upload succeeds exactly
      when the server is configured, the name is non-empty, the signer
      yields a non-empty URL and the PUT is accepted; the resulting file's
      id is its own name and its URL is the public domain, "/", that name. */
  lemma UploadThroughIssuer(file: File, env: PresignIssuer.R2Env,
                            sign: PresignIssuer.SignRequest -> PresignIssuer.SignResult,
                            transfer: TransferCall, now: int)
    requires IsImageType(file.mimeType)
    ensures var body := Json(PresignIssuer.PresignBody(Text(file.name), Text(file.mimeType)));
      var reply := PresignIssuer.OnRequestPost(env, body, sign);
      var run := UploadToR2(file, Exchange(PresignCallFor(reply), transfer), now);
      && (run.outcome.Uploaded? <==>
            && PresignIssuer.AllConfigured(env) && file.name != ""
            && (var signed := sign(PresignIssuer.SignRequestFor(env, file.name, file.mimeType));
                signed.Signed? && signed.url != "")
            && transfer.TransferAnswered? && transfer.ok)
      && (run.outcome.Uploaded? ==>
            && run.outcome.file.id == file.name
            && run.outcome.file.url == env.publicImageDomain.value + "/" + file.name
            && EndsWith(run.outcome.file.url, "/" + file.name))
      && (reply.status != 200 ==>
            run.outcome == Failed(PrepareFailed + ": " + reply.body.value.error))
  {
    var body := Json(PresignIssuer.PresignBody(Text(file.name), Text(file.mimeType)));
    var reply := PresignIssuer.OnRequestPost(env, body, sign);
    assert file.mimeType != "";
    if reply.status == 200 {
      var url := reply.body.value.publicUrl;
      assert url == PresignIssuer.PublicUrl(env.publicImageDomain.value, file.name);
    }
  }
}

=== FILE: http.dfy ===
/** The request and response shapes of the two JSON endpoints, with JSON
    parsing and `fetch` reduced to abstract outcomes. */
module Http {
  import opened Common

  /** A property read off a parsed request body: absent (`undefined`),
      present with a non-string value, or a string. */
  datatype Field = Missing | NotText | Text(text: string)

  /** The check `typeof f === 'string' && f` : a non-empty string. */
  predicate Filled(f: Field)
  {
    f.Text? && f.text != ""
  }

  /** What `await request.json()` gives the handler: it throws, it yields
      JSON `null` (whose destructuring then throws a `TypeError` carrying
      `typeError` as message), or it yields some other JSON value. A JSON
      value that is not an object shows all its fields as `Missing`. */
  datatype Parsed<+T> = Malformed | JsonNull(typeError: string) | Json(value: T)

  /** The JSON object an endpoint answers with. */
  datatype Payload =
    | Rejected(error: string)                                  // { success: false, error }
    | Accepted                                                 // { success: true }
    | Grant(presignedUrl: string, publicUrl: string, key: string) // { success: true, presignedUrl, publicUrl, key }
  {
    predicate Success()
    {
      !Rejected?
    }
  }

  /** An HTTP response: a status code and, except for 405, a JSON body. */
  datatype Reply = Reply(status: nat, body: Option<Payload>)

  /** `Response.ok`: the status is in the 2xx range. */
  predicate IsOk(status: nat)
  {
    200 <= status <= 299
  }

  function Fail(status: nat, message: string): Reply
  {
    Reply(status, Some(Rejected(message)))
  }

  const MethodNotAllowedStatus: nat := 405

  const InvalidRequestBody: string := "Invalid request body."
}

=== FILE: presign_issuer.dfy ===
/** The presign issuer behind `POST /api/r2presign`: validates the
    configuration and the request, then asks the signer for a time-limited
    PUT URL for one object and derives the object's public URL. */
module PresignIssuer {
  import opened Common
  import opened Types
  import opened Http

  /** The six settings the handler reads; each may be unset. */
  datatype R2Env = R2Env(
    accountId: Option<string>,
    accessKeyId: Option<string>,
    secretAccessKey: Option<string>,
    bucketName: Option<string>,
    r2PublicDomain: Option<string>,
    publicImageDomain: Option<string>)

  /** The request body's two fields. */
  datatype PresignBody = PresignBody(fileName: Field, contentType: Field)

  /** Everything the signer is given: the client settings and the
      `PutObjectCommand`, plus the validity window in seconds. */
  datatype SignRequest = SignRequest(
    region: string,
    endpoint: string,
    accessKeyId: string,
    secretAccessKey: string,
    bucket: string,
    key: string,
    contentType: string,
    expiresIn: nat)

  /** The signer's outcome: a URL, or an exception. */
  datatype SignResult = Signed(url: string) | SignThrew(thrown: Thrown)

  /** A validated request, ready to be signed. */
  datatype Plan = Plan(request: SignRequest, publicUrl: string)

  const ConfigError: string := "Server configuration error (R2)."
  const FieldsRequired: string := "fileName and contentType are required."
  const OnlyImages: string := "Only image files are allowed."
  const SigningFailed: string := "Failed to generate presigned URL: "
  const UnexpectedError: string := "An unexpected error occurred"
  const ExpirySeconds: nat := 300
  /** R2 is addressed through the S3 API with the pseudo-region `auto`, on
      a host named after the account. */
  const R2Region: string := "auto"
  const EndpointScheme: string := "https://"
  const R2HostSuffix: string := ".r2.cloudflarestorage.com"

  predicate AllConfigured(env: R2Env)
  {
    && Truthy(env.accountId)
    && Truthy(env.accessKeyId)
    && Truthy(env.secretAccessKey)
    && Truthy(env.bucketName)
    && Truthy(env.r2PublicDomain)
    && Truthy(env.publicImageDomain)
  }

  /** The message the outer `catch` reports. */
  function ThrownText(t: Thrown): string
  {
    match t
    case ErrorWith(m) => m
    case NotAnError => UnexpectedError
  }

  /** The public URL of the object stored under `key`. */
  function PublicUrl(domain: string, key: string): (url: string)
    ensures StartsWith(url, domain) && EndsWith(url, "/" + key)
    ensures |url| == |domain| + 1 + |key|
  {
    domain + "/" + key
  }

  /** The request handed to the signer for one object. The object key is
      the file name, verbatim, so a later upload of the same name replaces
      the earlier object. */
  function SignRequestFor(env: R2Env, fileName: string, contentType: string): (req: SignRequest)
    requires AllConfigured(env)
    ensures req.key == fileName && req.contentType == contentType
    ensures req.bucket == env.bucketName.value && req.expiresIn == ExpirySeconds
    ensures req.accessKeyId == env.accessKeyId.value
    ensures req.secretAccessKey == env.secretAccessKey.value
    // the endpoint is the account's own R2 host and nothing else: the
    // account id sits between the scheme and the host suffix
    ensures req.region == R2Region
    ensures StartsWith(req.endpoint, EndpointScheme + env.accountId.value + ".")
    ensures EndsWith(req.endpoint, R2HostSuffix)
    ensures |req.endpoint| == |EndpointScheme| + |env.accountId.value| + |R2HostSuffix|
  {
    var id := env.accountId.value;
    var endpoint := EndpointScheme + id + R2HostSuffix;
    assert endpoint[..|EndpointScheme + id + "."|] == EndpointScheme + id + ".";
    assert endpoint[|endpoint| - |R2HostSuffix|..] == R2HostSuffix;
    SignRequest(
      R2Region,
      endpoint,
      env.accessKeyId.value,
      env.secretAccessKey.value,
      env.bucketName.value,
      fileName,
      contentType,
      ExpirySeconds)
  }

  /** Everything before signing: configuration, parsing, the two required
      fields and the image allowlist, in that order. It does not see the
      signer, so a request it rejects is never signed. */
  function Validate(env: R2Env, body: Parsed<PresignBody>): (r: Result<Plan, Reply>)
    ensures r.Err? ==> r.error.body.Some? && r.error.body.value.Rejected?
    ensures r.Err? ==> r.error.status in {400, 500}
    ensures !AllConfigured(env) ==> r == Err(Fail(500, ConfigError))
    ensures AllConfigured(env) && body.Malformed? ==> r == Err(Fail(400, InvalidRequestBody))
    ensures AllConfigured(env) && body.JsonNull? ==>
      r == Err(Fail(500, SigningFailed + body.typeError))
    ensures (&& AllConfigured(env) && body.Json?
             && !(Filled(body.value.fileName) && Filled(body.value.contentType))) ==>
      r == Err(Fail(400, FieldsRequired))
    ensures (&& AllConfigured(env) && body.Json?
             && Filled(body.value.fileName) && Filled(body.value.contentType)
             && !IsImageType(body.value.contentType.text)) ==>
      r == Err(Fail(400, OnlyImages))
    ensures r.Ok? <==>
      && AllConfigured(env) && body.Json?
      && Filled(body.value.fileName) && Filled(body.value.contentType)
      && IsImageType(body.value.contentType.text)
    ensures r.Ok? ==>
      && r.value.request == SignRequestFor(env, body.value.fileName.text, body.value.contentType.text)
      && r.value.request.key == body.value.fileName.text
      && r.value.publicUrl == env.publicImageDomain.value + "/" + r.value.request.key
  {
    if !AllConfigured(env) then Err(Fail(500, ConfigError))
    else match body
      case Malformed => Err(Fail(400, InvalidRequestBody))
      case JsonNull(typeError) => Err(Fail(500, SigningFailed + typeError))
      case Json(PresignBody(fileName, contentType)) =>
        if !(Filled(fileName) && Filled(contentType)) then Err(Fail(400, FieldsRequired))
        else if !IsImageType(contentType.text) then Err(Fail(400, OnlyImages))
        else
          Ok(Plan(SignRequestFor(env, fileName.text, contentType.text),
                  PublicUrl(env.publicImageDomain.value, fileName.text)))
  }

  /** The POST handler. `sign` stands for `getSignedUrl` on the client and
      command built from the settings. */
  function OnRequestPost(env: R2Env, body: Parsed<PresignBody>, sign: SignRequest -> SignResult): (r: Reply)
    ensures r.body.Some? && r.status in {200, 400, 500}
    ensures r.status == 200 <==> r.body.value.Success()
    // a rejected request is answered without consulting the signer
    ensures Validate(env, body).Err? ==> r == Validate(env, body).error
    // success: the returned key is the file name, the public URL is the
    // domain followed by "/" and that key, and the presigned URL is the
    // signer's answer for a 300-second PUT of exactly that key
    ensures r.status == 200 ==>
      && AllConfigured(env) && body.Json? && Filled(body.value.fileName)
      && IsImageType(body.value.contentType.text)
      && var req := SignRequestFor(env, body.value.fileName.text, body.value.contentType.text);
         && sign(req).Signed?
         && r.body.value == Grant(sign(req).url,
                                  env.publicImageDomain.value + "/" + body.value.fileName.text,
                                  body.value.fileName.text)
    ensures Validate(env, body).Ok? ==>
      var req := Validate(env, body).value.request;
      (r.status == 200 <==> sign(req).Signed?) &&
      (sign(req).SignThrew? ==> r == Fail(500, SigningFailed + ThrownText(sign(req).thrown)))
  {
    match Validate(env, body)
    case Err(reply) => reply
    case Ok(plan) =>
      match sign(plan.request)
      case Signed(url) => Reply(200, Some(Grant(url, plan.publicUrl, plan.request.key)))
      case SignThrew(t) => Fail(500, SigningFailed + ThrownText(t))
  }

  /** The GET handler: 405 with no body. */
  function OnRequestGet(env: R2Env): (r: Reply)
    ensures r.status == MethodNotAllowedStatus && r.body.None?
    ensures forall body: Parsed<PresignBody>, sign: SignRequest -> SignResult ::
      r != OnRequestPost(env, body, sign)
  {
    Reply(MethodNotAllowedStatus, None)
  }

  /** `R2_PUBLIC_DOMAIN` must be set, but its value is never used: two
      configurations that differ only there answer every request alike. */
  lemma R2PublicDomainOnlyGates(env: R2Env, other: string, body: Parsed<PresignBody>,
                                sign: SignRequest -> SignResult)
    requires Truthy(env.r2PublicDomain) && other != ""
    ensures OnRequestPost(env.(r2PublicDomain := Some(other)), body, sign)
         == OnRequestPost(env, body, sign)
  {
  }
}

=== FILE: r2_service.dfy ===
/** The client's per-file upload (`uploadToR2`): check the declared type,
    obtain a presigned grant, PUT the bytes to it, and build the
    `UploadedFile`. The two network calls are abstract answers, and the
    progress callback is recorded as the list of values it receives. */
module R2Service {
  import opened Common
  import opened Types

  /** A local file as the browser describes it. */
  datatype File = File(name: string, size: nat, mimeType: string)

  /** The presign endpoint's JSON as the client reads it. A string field
      that is absent or empty is `""` (both are falsy in the checks). */
  datatype PresignData = PresignData(
    success: bool,
    presignedUrl: string,
    publicUrl: string,
    key: string,
    error: string)

  /** The presign round trip: `fetch`, `json()` or a property read threw,
      or a response arrived with its `ok` flag, status and body. */
  datatype PresignCall =
    | PresignThrew(thrown: Thrown)
    | PresignAnswered(ok: bool, status: nat, data: PresignData)

  /** The PUT to the presigned URL: `fetch` threw, or a response arrived;
      `text` is its body, `None` when reading the body threw. */
  datatype TransferCall =
    | TransferThrew(thrown: Thrown)
    | TransferAnswered(ok: bool, status: nat, text: Option<string>)

  /** The environment's answers to the two calls made for one file. */
  datatype Exchange = Exchange(presign: PresignCall, transfer: TransferCall)

  /** How `uploadToR2` settles: a descriptor, or an `Error` with a message. */
  datatype Outcome = Uploaded(file: UploadedFile) | Failed(message: string)

  /** The values passed to `onProgress`, in call order, and the outcome. */
  datatype UploadRun = UploadRun(progress: seq<nat>, outcome: Outcome)

  const NotAnImage: string := "Only image files are allowed"
  const PrepareFailed: string := "Failed to prepare upload"
  const PresignStatusPrefix: string := "Failed to get presigned URL (Status: "
  const TransferStatusPrefix: string := "Upload failed with status: "
  const R2ErrorInfix: string := " - R2 Error: "
  const R2ErrorMarker: string := "<Code>"
  const R2ErrorLimit: nat := 200
  const NetworkFailure: string :=
    "Network error during upload: " + "Please check your internet connection and try again"
  const UploadFailedPrefix: string := "Upload failed: "
  const UploadUnexpected: string := UploadFailedPrefix + "An unexpected error occurred"

  /** The client accepts a presign answer only when the response is ok, the
      body says `success`, and the three strings it needs are non-empty. */
  predicate PresignAccepted(call: PresignCall)
  {
    && call.PresignAnswered?
    && call.ok
    && call.data.success
    && call.data.presignedUrl != ""
    && call.data.publicUrl != ""
    && call.data.key != ""
  }

  /** The message thrown when the presign answer is refused. */
  function PresignFailureMessage(call: PresignCall): (m: string)
    requires !PresignAccepted(call)
    ensures StartsWith(m, PrepareFailed)
    ensures call.PresignThrew? && call.thrown.ErrorWith? ==>
      m == PrepareFailed + ": " + call.thrown.message
    ensures call.PresignAnswered? && call.data.error != "" ==>
      m == PrepareFailed + ": " + call.data.error
    ensures call.PresignAnswered? && call.data.error == "" ==>
      m == PrepareFailed + ": " + PresignStatusPrefix + NatToString(call.status) + ")"
    ensures call == PresignThrew(NotAnError) ==> m == PrepareFailed
  {
    match call
    case PresignThrew(ErrorWith(e)) =>
      PrefixOfConcat(PrepareFailed, ": " + e);
      PrepareFailed + (": " + e)
    case PresignThrew(NotAnError) =>
      PrefixOfConcat(PrepareFailed, []);
      PrepareFailed
    case PresignAnswered(_, status, data) =>
      var inner := if data.error != "" then data.error
                   else PresignStatusPrefix + NatToString(status) + ")";
      PrefixOfConcat(PrepareFailed, ": " + inner);
      PrepareFailed + (": " + inner)
  }

  /** The message built for a PUT answered with a non-ok status: the status,
      then the storage provider's body only when it looks like an XML error
      document, cut to its first 200 characters. */
  function TransferErrorText(status: nat, text: Option<string>): (m: string)
    ensures StartsWith(m, TransferStatusPrefix + NatToString(status))
    ensures |m| <= |TransferStatusPrefix + NatToString(status)| + |R2ErrorInfix| + R2ErrorLimit
    ensures m != TransferStatusPrefix + NatToString(status) <==>
      text.Some? && Contains(text.value, R2ErrorMarker)
    // the appended part is exactly the separator followed by the cut body
    ensures text.Some? && Contains(text.value, R2ErrorMarker) ==>
      var base := TransferStatusPrefix + NatToString(status);
      && |m| == |base| + |R2ErrorInfix| + |Truncate(text.value, R2ErrorLimit)|
      && m[|base|..|base| + |R2ErrorInfix|] == R2ErrorInfix
      && EndsWith(m, Truncate(text.value, R2ErrorLimit))
  {
    var base := TransferStatusPrefix + NatToString(status);
    if text.Some? && Contains(text.value, R2ErrorMarker) then
      base + R2ErrorInfix + Truncate(text.value, R2ErrorLimit)
    else
      base
  }

  /** The outer `catch` of the transfer step, which also receives the
      transfer-status error thrown inside its own `try`. */
  function UploadFailureMessage(t: Thrown): (m: string)
    ensures m == NetworkFailure || StartsWith(m, UploadFailedPrefix)
    ensures t.ErrorWith? ==>
      (m == NetworkFailure <==>
         Contains(t.message, "NetworkError") || Contains(t.message, "Failed to fetch"))
    ensures t.ErrorWith? && m != NetworkFailure ==> m == UploadFailedPrefix + t.message
    ensures t.NotAnError? ==> m == UploadUnexpected
  {
    match t
    case ErrorWith(e) =>
      if Contains(e, "NetworkError") || Contains(e, "Failed to fetch") then NetworkFailure
      else
        PrefixOfConcat(UploadFailedPrefix, e);
        assert (UploadFailedPrefix + e)[0] != NetworkFailure[0];
        UploadFailedPrefix + e
    case NotAnError =>
      assert UploadUnexpected[0] != NetworkFailure[0];
      PrefixOfConcat(UploadFailedPrefix, "An unexpected error occurred");
      UploadUnexpected
  }

  /** `uploadToR2(file, onProgress)` with the environment's answers `ex`
      and the clock reading `now`. */
  function UploadToR2(file: File, ex: Exchange, now: int): (r: UploadRun)
    // onProgress sees 50, then 100, or a prefix of that
    ensures r.progress <= [50, 100]
    // a non-image is refused before anything is sent
    ensures !IsImageType(file.mimeType) ==> r == UploadRun([], Failed(NotAnImage))
    // a refused presign answer stops before the transfer, with the prefix
    ensures IsImageType(file.mimeType) && !PresignAccepted(ex.presign) ==>
      r == UploadRun([], Failed(PresignFailureMessage(ex.presign)))
    // once the transfer starts, 50 is reported; 100 once it has answered
    ensures IsImageType(file.mimeType) && PresignAccepted(ex.presign) ==>
      r.progress == (if ex.transfer.TransferAnswered? then [50, 100] else [50])
    // success exactly when every step succeeds
    ensures r.outcome.Uploaded? <==>
      IsImageType(file.mimeType) && PresignAccepted(ex.presign) &&
      ex.transfer.TransferAnswered? && ex.transfer.ok
    // the descriptor comes from the grant and the local file
    ensures r.outcome.Uploaded? ==>
      && r.outcome.file.id == ex.presign.data.key
      && r.outcome.file.url == ex.presign.data.publicUrl
      && r.outcome.file.name == file.name
      && r.outcome.file.size == file.size
      && r.outcome.file.mimeType == file.mimeType
      && r.outcome.file.uploadedAt == now
      && r.progress == [50, 100]
    // a PUT whose fetch throws is reported through the outer catch
    ensures (&& IsImageType(file.mimeType) && PresignAccepted(ex.presign)
             && ex.transfer.TransferThrew?) ==>
      r.outcome == Failed(UploadFailureMessage(ex.transfer.thrown))
    // a rejected PUT is reported through the outer catch
    ensures (&& IsImageType(file.mimeType) && PresignAccepted(ex.presign)
             && ex.transfer.TransferAnswered? && !ex.transfer.ok) ==>
      r.outcome == Failed(UploadFailureMessage(
        ErrorWith(TransferErrorText(ex.transfer.status, ex.transfer.text))))
  {
    if !IsImageType(file.mimeType) then UploadRun([], Failed(NotAnImage))
    else if !PresignAccepted(ex.presign) then UploadRun([], Failed(PresignFailureMessage(ex.presign)))
    else
      var grant := ex.presign.data;
      match ex.transfer
      case TransferThrew(t) => UploadRun([50], Failed(UploadFailureMessage(t)))
      case TransferAnswered(ok, status, text) =>
        if !ok then
          UploadRun([50, 100], Failed(UploadFailureMessage(ErrorWith(TransferErrorText(status, text)))))
        else
          UploadRun([50, 100], Uploaded(UploadedFile(
            grant.key, file.name, file.size, file.mimeType, grant.publicUrl, now)))
  }

  /** The outer catch keeps whatever prefix an error message had, behind
      its own, unless the message mentions a network failure. */
  lemma OuterCatchKeepsPrefix(e: string, prefix: string)
    requires StartsWith(e, prefix)
    ensures var m := UploadFailureMessage(ErrorWith(e));
      m == NetworkFailure || StartsWith(m, UploadFailedPrefix + prefix)
  {
    if UploadFailureMessage(ErrorWith(e)) != NetworkFailure {
      PrefixUnderSameHead(UploadFailedPrefix, e, prefix);
    }
  }

  /** A PUT refused by the store ends in "Upload failed: Upload failed with
      status: N…" (the status error is wrapped a second time) unless the
      store's text itself mentions a network failure. */
  lemma RejectedTransferIsWrappedTwice(file: File, ex: Exchange, now: int)
    requires IsImageType(file.mimeType) && PresignAccepted(ex.presign)
    requires ex.transfer.TransferAnswered? && !ex.transfer.ok
    ensures var m := UploadToR2(file, ex, now).outcome.message;
      m == NetworkFailure ||
      StartsWith(m, UploadFailedPrefix + (TransferStatusPrefix + NatToString(ex.transfer.status)))
  {
    OuterCatchKeepsPrefix(TransferErrorText(ex.transfer.status, ex.transfer.text),
                          TransferStatusPrefix + NatToString(ex.transfer.status));
  }
}

=== FILE: types.dfy ===
/** The records the client keeps (src/types/index.ts) and the content-type
    allowlist that both the client and the presign endpoint apply. */
module Types {
  import opened Common

  /** A file that has landed in the bucket. `mimeType` is the source's
      `type` field (a keyword here); `uploadedAt` is the clock reading taken
      when the descriptor was built. */
  datatype UploadedFile = UploadedFile(
    id: string,
    name: string,
    size: nat,
    mimeType: string,
    url: string,
    uploadedAt: int)

  /** Whether the browsing session is unlocked, and the last login error. */
  datatype AuthState = AuthState(isAuthenticated: bool, error: Option<string>)

  /** The upload hook's state: the batch flag, the progress percentage shown,
      the last batch error, the whole history and the last batch's files. */
  datatype UploadState = UploadState(
    isUploading: bool,
    progress: nat,
    error: Option<string>,
    files: seq<UploadedFile>,
    recentUploads: seq<UploadedFile>)

  const ImagePrefix: string := "image/"

  /** The allowlist: a declared content type passes when it starts with
      `image/`, compared case-sensitively. */
  predicate IsImageType(contentType: string)
  {
    StartsWith(contentType, ImagePrefix)
  }
}

=== FILE: upload_batch.dfy ===
/** The batch orchestrator (`useUpload`): files are uploaded one at a
    time, in order, stopping at the first failure; the hook's state moves
    through a start state, one progress update per callback, and a final
    state that either appends the new files to the history or records the
    error and leaves the history alone. */
module UploadBatch {
  import opened Common
  import opened Types
  import opened R2Service

  /** The hook's state before any batch. */
  function InitialState(): (s: UploadState)
    ensures !s.isUploading && s.progress == 0 && s.error.None?
    ensures s.files == [] && s.recentUploads == []
  {
    UploadState(false, 0, None, [], [])
  }

  /** `Math.round(a / n)` on exact rationals: the nearest integer, halves
      rounded up. */
  function RoundDiv(a: nat, n: nat): nat
    requires n > 0
  {
    (2 * a + n) / (2 * n)
  }

  /** `RoundDiv(a, n)` is the integer r with r - 1/2 <= a / n < r + 1/2. */
  lemma RoundDivIsNearest(a: nat, n: nat)
    requires n > 0
    ensures 2 * n * RoundDiv(a, n) <= 2 * a + n < 2 * n * (RoundDiv(a, n) + 1)
  {
  }

  lemma MulMonotone(c: nat, x: nat, y: nat)
    requires x <= y
    ensures c * x <= c * y
  {
  }

  lemma MulCancelLess(c: nat, x: nat, y: nat)
    requires c * x < c * y
    ensures x < y
  {
    if y <= x {
      MulMonotone(c, y, x);
    }
  }

  lemma RoundDivMonotone(a: nat, b: nat, n: nat)
    requires n > 0 && a <= b
    ensures RoundDiv(a, n) <= RoundDiv(b, n)
  {
    RoundDivIsNearest(a, n);
    RoundDivIsNearest(b, n);
    MulCancelLess(2 * n, RoundDiv(a, n), RoundDiv(b, n) + 1);
  }

  lemma RoundDivWhole(k: nat, n: nat)
    requires n > 0
    ensures RoundDiv(k * n, n) == k
  {
    var r := RoundDiv(k * n, n);
    RoundDivIsNearest(k * n, n);
    assert 2 * n * (k + 1) == 2 * (k * n) + 2 * n;
    assert 2 * n * k == 2 * (k * n);
    MulCancelLess(2 * n, r, k + 1);
    MulCancelLess(2 * n, k, r + 1);
  }

  /** Progress shown when file `i` of `n` starts:
      `Math.round(progressPerFile * i)` with `progressPerFile = 100 / n`. */
  function StartProgress(i: nat, n: nat): nat
    requires n > 0
  {
    RoundDiv(100 * i, n)
  }

  /** Progress shown when file `i` of `n` reports `p`:
      `Math.round(i * progressPerFile + p * progressPerFile / 100)`, which is
      `(100 * i + p) / n` rounded. */
  function CallbackProgress(i: nat, n: nat, p: nat): nat
    requires n > 0
  {
    RoundDiv(100 * i + p, n)
  }

  /** The progress values written while file `i` of `n` is processed, given
      the values its upload passed to `onProgress`. */
  function FileProgress(i: nat, n: nat, reported: seq<nat>): (ps: seq<nat>)
    requires n > 0
    ensures |ps| == |reported| + 1 && ps[0] == StartProgress(i, n)
    ensures forall k :: 0 <= k < |reported| ==> ps[k + 1] == CallbackProgress(i, n, reported[k])
  {
    [StartProgress(i, n)] + seq(|reported|, k requires 0 <= k < |reported| => CallbackProgress(i, n, reported[k]))
  }

  /** What the loop has produced: the progress values written, and either
      the uploaded files or the message of the error that stopped it. */
  datatype Pass = Pass(trace: seq<nat>, result: Result<seq<UploadedFile>, string>)

  /** Each file's upload on its own: `runs[k]` is what `uploadToR2` does
      with `files[k]` given the answers `exs[k]`. The loop below consults a
      run only when every earlier file has succeeded. */
  function Runs(files: seq<File>, exs: seq<Exchange>, now: int): (runs: seq<UploadRun>)
    requires |files| == |exs|
    ensures |runs| == |files|
    ensures forall k :: 0 <= k < |files| ==> runs[k] == UploadToR2(files[k], exs[k], now)
  {
    seq(|files|, k requires 0 <= k < |files| => UploadToR2(files[k], exs[k], now))
  }

  /** The `for` loop over the files not yet processed, `done` of `n` being
      behind it. */
  function Loop(runs: seq<UploadRun>, done: nat, n: nat): (r: Pass)
    requires done + |runs| == n
    decreases |runs|
  {
    if |runs| == 0 then Pass([], Ok([]))
    else
      var steps := FileProgress(done, n, runs[0].progress);
      match runs[0].outcome
      case Failed(m) => Pass(steps, Err(m))
      case Uploaded(f) =>
        var rest := Loop(runs[1..], done + 1, n);
        Pass(steps + rest.trace,
             match rest.result
             case Ok(fs) => Ok([f] + fs)
             case Err(m) => Err(m))
  }

  /** The value the returned promise settles to: `undefined` for an empty
      batch, `null` after a failure, or the new files. */
  datatype BatchReturn = NoValue | NullResult | NewFiles(files: seq<UploadedFile>)

  /** A whole batch: every state the hook writes, in order (the last is
      `final`), the returned value, and whether the reset of the progress
      bar was scheduled. */
  datatype BatchRun = BatchRun(
    states: seq<UploadState>,
    final: UploadState,
    returned: BatchReturn,
    resetScheduled: bool)

  /** The state written when a batch starts. */
  function Started(st: UploadState): (s: UploadState)
    ensures s.isUploading && s.progress == 0 && s.error.None?
    ensures s.files == st.files && s.recentUploads == st.recentUploads
  {
    st.(isUploading := true, progress := 0, error := None)
  }

  /** The states written by the progress updates: the start state with
      each progress value in turn. */
  function Running(s0: UploadState, trace: seq<nat>): (rs: seq<UploadState>)
    ensures |rs| == |trace|
    ensures forall k :: 0 <= k < |trace| ==> rs[k] == s0.(progress := trace[k])
  {
    seq(|trace|, k requires 0 <= k < |trace| => s0.(progress := trace[k]))
  }

  /** `uploadFiles(files)` from state `st`, with `exs[k]` the network's
      answers for `files[k]` and `now` the clock. */
  function UploadFiles(st: UploadState, files: seq<File>, exs: seq<Exchange>, now: int): (r: BatchRun)
    requires |files| == |exs|
    // an empty batch is a no-op returning undefined
    ensures |files| == 0 ==> r == BatchRun([], st, NoValue, false)
    ensures |files| > 0 ==>
      && |r.states| >= 2 && r.states[0] == Started(st)
      && r.final == r.states[|r.states| - 1] && !r.final.isUploading
      && !r.returned.NoValue?
    // while the batch runs only the progress moves
    ensures forall k :: 0 <= k < |r.states| - 1 ==>
      r.states[k] == Started(st).(progress := r.states[k].progress)
    // the delayed progress reset belongs to the success path only
    ensures r.resetScheduled <==> r.returned.NewFiles?
    // success: the new files are appended to the history and become the recent uploads
    ensures r.returned.NewFiles? ==>
      r.final == UploadState(false, 100, None, st.files + r.returned.files, r.returned.files)
    // failure: the error is recorded and the history is untouched
    ensures r.returned.NullResult? ==>
      && !r.final.isUploading && r.final.error.Some?
      && r.final.files == st.files && r.final.recentUploads == st.recentUploads
  {
    if |files| == 0 then BatchRun([], st, NoValue, false)
    else
      var s0 := Started(st);
      var pass := Loop(Runs(files, exs, now), 0, |files|);
      var running := Running(s0, pass.trace);
      var last := if |running| == 0 then s0 else running[|running| - 1];
      match pass.result
      case Ok(nf) =>
        var fin := last.(isUploading := false, progress := 100, files := last.files + nf, recentUploads := nf);
        BatchRun([s0] + running + [fin], fin, NewFiles(nf), true)
      case Err(m) =>
        var fin := last.(isUploading := false, error := Some(m));
        BatchRun([s0] + running + [fin], fin, NullResult, false)
  }

  /** The timer that fires after a successful batch: the bar goes back to 0. */
  function ResetProgress(st: UploadState): (s: UploadState)
    ensures s.progress == 0
    ensures s.files == st.files && s.recentUploads == st.recentUploads
    ensures s.isUploading == st.isUploading && s.error == st.error
  {
    st.(progress := 0)
  }

  /** `clearRecentUploads`: forget the last batch's list, keep the history. */
  function ClearRecentUploads(st: UploadState): (s: UploadState)
    ensures s.recentUploads == []
    ensures s.files == st.files && s.isUploading == st.isUploading
    ensures s.progress == st.progress && s.error == st.error
  {
    st.(recentUploads := [])
  }

  // ---------------------------------------------------------------------
  // The loop against its reference: each file on its own.

  /** Every run before `j` succeeds and run `j` fails with message `m`. */
  predicate FirstFailureAt(runs: seq<UploadRun>, j: nat, m: string)
  {
    && j < |runs|
    && (forall k :: 0 <= k < j ==> runs[k].outcome.Uploaded?)
    && runs[j].outcome == Failed(m)
  }

  lemma {:induction false} LoopSucceedsIffAll(runs: seq<UploadRun>, done: nat, n: nat)
    requires done + |runs| == n
    ensures var r := Loop(runs, done, n).result;
      && (r.Ok? <==> forall k :: 0 <= k < |runs| ==> runs[k].outcome.Uploaded?)
      && (r.Ok? ==>
            && |r.value| == |runs|
            && forall k :: 0 <= k < |runs| ==> runs[k].outcome == Uploaded(r.value[k]))
    decreases |runs|
  {
    if |runs| > 0 && runs[0].outcome.Uploaded? {
      LoopSucceedsIffAll(runs[1..], done + 1, n);
      var r := Loop(runs, done, n).result;
      var rest := Loop(runs[1..], done + 1, n).result;
      forall k | 1 <= k < |runs|
        ensures runs[k] == runs[1..][k - 1]
      {
      }
      if rest.Ok? {
        forall k | 1 <= k < |runs|
          ensures runs[k].outcome == Uploaded(r.value[k])
        {
          assert r.value[k] == rest.value[k - 1];
        }
      }
    }
  }

  lemma {:induction false} LoopFailsAtFirst(runs: seq<UploadRun>, done: nat, n: nat)
    requires done + |runs| == n
    ensures var r := Loop(runs, done, n).result;
      r.Err? ==> exists j: nat :: FirstFailureAt(runs, j, r.error)
    decreases |runs|
  {
    var r := Loop(runs, done, n).result;
    if |runs| > 0 && r.Err? {
      if runs[0].outcome.Failed? {
        assert FirstFailureAt(runs, 0, r.error);
      } else {
        LoopFailsAtFirst(runs[1..], done + 1, n);
        var j: nat :| FirstFailureAt(runs[1..], j, r.error);
        forall k | 1 <= k < j + 1
          ensures runs[k].outcome.Uploaded?
        {
          assert runs[k] == runs[1..][k - 1];
        }
        assert runs[j + 1] == runs[1..][j];
        assert FirstFailureAt(runs, j + 1, r.error);
      }
    }
  }

  /** The loop stops at the first failing run: what it writes and reports
      depends only on the runs up to that one, and it reports that run's
      error. */
  lemma {:induction false} LoopStopsAtFirstFailure(runs: seq<UploadRun>, runs2: seq<UploadRun>,
                                                   done: nat, n: nat, j: nat, m: string)
    requires done + |runs| == n && |runs2| == |runs|
    requires FirstFailureAt(runs, j, m) && runs[..j + 1] == runs2[..j + 1]
    ensures Loop(runs, done, n) == Loop(runs2, done, n)
    ensures Loop(runs, done, n).result == Err(m)
    decreases j
  {
    assert runs[0] == runs[..j + 1][0] == runs2[..j + 1][0] == runs2[0];
    if j > 0 {
      forall k | 0 <= k < j - 1
        ensures runs[1..][k].outcome.Uploaded?
      {
        assert runs[1..][k] == runs[k + 1];
      }
      assert runs[1..][j - 1] == runs[j];
      assert FirstFailureAt(runs[1..], j - 1, m);
      forall k | 0 <= k < j
        ensures runs[1..][..j][k] == runs2[1..][..j][k]
      {
        assert runs[1..][..j][k] == runs[..j + 1][k + 1];
        assert runs2[1..][..j][k] == runs2[..j + 1][k + 1];
      }
      assert runs[1..][..j] == runs2[1..][..j];
      LoopStopsAtFirstFailure(runs[1..], runs2[1..], done + 1, n, j - 1, m);
    }
  }

  // ---------------------------------------------------------------------
  // Progress.

  predicate NonDecreasing(s: seq<nat>)
  {
    forall j, k :: 0 <= j < k < |s| ==> s[j] <= s[k]
  }

  /** Every value of `s` lies between `lo` and `hi`. */
  predicate Within(s: seq<nat>, lo: nat, hi: nat)
  {
    forall k :: 0 <= k < |s| ==> lo <= s[k] <= hi
  }

  lemma ConcatNonDecreasing(a: seq<nat>, b: seq<nat>, mid: nat)
    requires NonDecreasing(a) && NonDecreasing(b)
    requires forall k :: 0 <= k < |a| ==> a[k] <= mid
    requires forall k :: 0 <= k < |b| ==> mid <= b[k]
    ensures NonDecreasing(a + b)
  {
    forall j, k | 0 <= j < k < |a + b|
      ensures (a + b)[j] <= (a + b)[k]
    {
      if k < |a| {
        assert (a + b)[j] == a[j] && (a + b)[k] == a[k];
      } else if j >= |a| {
        assert (a + b)[j] == b[j - |a|] && (a + b)[k] == b[k - |a|];
      } else {
        assert (a + b)[j] == a[j] && (a + b)[k] == b[k - |a|];
      }
    }
  }

  /** The values written for one file rise from its start share to at most
      the next file's start share. */
  lemma FileProgressSteps(i: nat, n: nat, reported: seq<nat>)
    requires n > 0 && reported <= [50, 100]
    ensures var ps := FileProgress(i, n, reported);
      NonDecreasing(ps) && Within(ps, StartProgress(i, n), StartProgress(i + 1, n))
  {
    var ps := FileProgress(i, n, reported);
    RoundDivMonotone(100 * i, 100 * i + 50, n);
    RoundDivMonotone(100 * i + 50, 100 * i + 100, n);
    assert 100 * (i + 1) == 100 * i + 100;
    if |reported| >= 1 {
      assert reported[0] == 50;
      assert ps[1] == RoundDiv(100 * i + 50, n);
    }
    if |reported| == 2 {
      assert reported[1] == 100;
      assert ps[2] == RoundDiv(100 * i + 100, n);
    }
  }

  /** Every run reports a prefix of 50, 100 to its progress callback. */
  predicate ReportsHalfThenFull(runs: seq<UploadRun>)
    decreases |runs|
  {
    |runs| == 0 || (runs[0].progress <= [50, 100] && ReportsHalfThenFull(runs[1..]))
  }

  lemma {:induction false} EveryRunReportsHalfThenFull(runs: seq<UploadRun>)
    requires forall k :: 0 <= k < |runs| ==> runs[k].progress <= [50, 100]
    ensures ReportsHalfThenFull(runs)
    decreases |runs|
  {
    if |runs| > 0 {
      assert runs[0].progress <= [50, 100];
      forall k | 0 <= k < |runs| - 1
        ensures runs[1..][k].progress <= [50, 100]
      {
        assert runs[1..][k] == runs[k + 1];
      }
      EveryRunReportsHalfThenFull(runs[1..]);
    }
  }

  lemma ConcatWithin(a: seq<nat>, b: seq<nat>, lo: nat, mid: nat, hi: nat)
    requires Within(a, lo, mid) && Within(b, mid, hi) && lo <= mid <= hi
    ensures Within(a + b, lo, hi)
  {
    forall k | 0 <= k < |a + b|
      ensures lo <= (a + b)[k] <= hi
    {
      if k < |a| {
        assert (a + b)[k] == a[k];
      } else {
        assert (a + b)[k] == b[k - |a|];
      }
    }
  }

  /** One step of the loop: the current file's values, then the rest of
      the loop only when the file succeeded and files remain. */
  lemma LoopTraceUnfold(runs: seq<UploadRun>, done: nat, n: nat)
    requires done + |runs| == n && |runs| > 0
    ensures Loop(runs, done, n).trace ==
      FileProgress(done, n, runs[0].progress) +
      (if runs[0].outcome.Uploaded? && |runs| > 1 then Loop(runs[1..], done + 1, n).trace else [])
  {
    var steps := FileProgress(done, n, runs[0].progress);
    if runs[0].outcome.Failed? || |runs| == 1 {
      assert steps + [] == steps;
    }
  }

  /** One file's values followed by the rest of the loop's keep rising and
      stay within the outer bounds. */
  lemma JoinTrace(steps: seq<nat>, rest: seq<nat>, lo: nat, mid: nat, hi: nat)
    requires |steps| > 0 && NonDecreasing(steps) && Within(steps, lo, mid)
    requires NonDecreasing(rest) && Within(rest, mid, hi) && mid <= hi
    ensures var t := steps + rest;
      |t| > 0 && t[0] == steps[0] && NonDecreasing(t) && Within(t, lo, hi)
  {
    assert lo <= steps[0] <= mid;
    ConcatNonDecreasing(steps, rest, mid);
    ConcatWithin(steps, rest, lo, mid, hi);
  }

  /** The values written for file `done` of `n` start at its share, rise,
      and stay below the next share, which is at most the last one. */
  lemma FirstFileSteps(runs: seq<UploadRun>, done: nat, n: nat)
    requires done + |runs| == n && |runs| > 0 && runs[0].progress <= [50, 100]
    ensures var steps := FileProgress(done, n, runs[0].progress);
      && |steps| > 0 && steps[0] == StartProgress(done, n)
      && NonDecreasing(steps) && Within(steps, StartProgress(done, n), StartProgress(done + 1, n))
      && StartProgress(done + 1, n) <= StartProgress(n, n)
  {
    FileProgressSteps(done, n, runs[0].progress);
    RoundDivMonotone(100 * (done + 1), 100 * n, n);
  }

  /** The loop's trace rises within its bounds once the part after the
      first file, `rest`, does. */
  lemma LoopTraceStep(runs: seq<UploadRun>, done: nat, n: nat, rest: seq<nat>)
    requires done + |runs| == n && |runs| > 0 && runs[0].progress <= [50, 100]
    requires rest == if runs[0].outcome.Uploaded? && |runs| > 1
                     then Loop(runs[1..], done + 1, n).trace else []
    requires NonDecreasing(rest) && Within(rest, StartProgress(done + 1, n), StartProgress(n, n))
    ensures var t := Loop(runs, done, n).trace;
      && |t| > 0 && t[0] == StartProgress(done, n)
      && NonDecreasing(t) && Within(t, StartProgress(done, n), StartProgress(n, n))
  {
    FirstFileSteps(runs, done, n);
    LoopTraceUnfold(runs, done, n);
    JoinTrace(FileProgress(done, n, runs[0].progress), rest,
              StartProgress(done, n), StartProgress(done + 1, n), StartProgress(n, n));
  }

  lemma {:induction false} LoopTrace(runs: seq<UploadRun>, done: nat, n: nat)
    requires done + |runs| == n && |runs| > 0 && ReportsHalfThenFull(runs)
    ensures var t := Loop(runs, done, n).trace;
      && |t| > 0 && t[0] == StartProgress(done, n)
      && NonDecreasing(t) && Within(t, StartProgress(done, n), StartProgress(n, n))
    decreases |runs|
  {
    if runs[0].outcome.Uploaded? && |runs| > 1 {
      LoopTrace(runs[1..], done + 1, n);
      LoopTraceStep(runs, done, n, Loop(runs[1..], done + 1, n).trace);
    } else {
      LoopTraceStep(runs, done, n, []);
    }
  }

  /** Every run succeeds after reporting 50 and then 100. */
  predicate EveryRunUploadsFully(runs: seq<UploadRun>)
    decreases |runs|
  {
    |runs| == 0 ||
    (runs[0].outcome.Uploaded? && runs[0].progress == [50, 100] && EveryRunUploadsFully(runs[1..]))
  }

  lemma {:induction false} EveryRunUploadsFullyFromEach(runs: seq<UploadRun>)
    requires forall k :: 0 <= k < |runs| ==> runs[k].outcome.Uploaded? && runs[k].progress == [50, 100]
    ensures EveryRunUploadsFully(runs)
    decreases |runs|
  {
    if |runs| > 0 {
      forall k | 0 <= k < |runs| - 1
        ensures runs[1..][k].outcome.Uploaded? && runs[1..][k].progress == [50, 100]
      {
        assert runs[1..][k] == runs[k + 1];
      }
      EveryRunUploadsFullyFromEach(runs[1..]);
    }
  }

  /** `t` holds three values for each of `count` files starting at file
      `first` of `n`: the file's start share, its share with half of it
      sent, and its share with all of it sent. */
  predicate ThreeShares(t: seq<nat>, first: nat, n: nat, count: nat)
    requires n > 0
  {
    && |t| == 3 * count
    && forall k :: 0 <= k < count ==>
         && t[3 * k] == StartProgress(first + k, n)
         && t[3 * k + 1] == CallbackProgress(first + k, n, 50)
         && t[3 * k + 2] == CallbackProgress(first + k, n, 100)
  }

  lemma ThreeSharesCons(rest: seq<nat>, first: nat, n: nat, count: nat)
    requires n > 0 && ThreeShares(rest, first + 1, n, count)
    ensures ThreeShares(FileProgress(first, n, [50, 100]) + rest, first, n, count + 1)
  {
    var steps := FileProgress(first, n, [50, 100]);
    var t := steps + rest;
    assert steps == [StartProgress(first, n), CallbackProgress(first, n, 50), CallbackProgress(first, n, 100)];
    forall k | 0 <= k < count + 1
      ensures && t[3 * k] == StartProgress(first + k, n)
              && t[3 * k + 1] == CallbackProgress(first + k, n, 50)
              && t[3 * k + 2] == CallbackProgress(first + k, n, 100)
    {
      if k > 0 {
        assert t[3 * k] == rest[3 * (k - 1)];
        assert t[3 * k + 1] == rest[3 * (k - 1) + 1];
        assert t[3 * k + 2] == rest[3 * (k - 1) + 2];
        assert first + 1 + (k - 1) == first + k;
      }
    }
  }

  /** When every file uploads, the loop writes three values per file. */
  lemma {:induction false} LoopTraceOfSuccess(runs: seq<UploadRun>, done: nat, n: nat)
    requires done + |runs| == n && n > 0 && EveryRunUploadsFully(runs)
    ensures ThreeShares(Loop(runs, done, n).trace, done, n, |runs|)
    decreases |runs|
  {
    if |runs| > 0 {
      LoopTraceUnfold(runs, done, n);
      if |runs| > 1 {
        LoopTraceOfSuccess(runs[1..], done + 1, n);
        ThreeSharesCons(Loop(runs[1..], done + 1, n).trace, done, n, |runs| - 1);
      } else {
        assert ThreeShares([], done + 1, n, 0);
        ThreeSharesCons([], done, n, 0);
      }
    }
  }

  // ---------------------------------------------------------------------
  // Properties of a whole batch.

  /** Success exactly when every file uploads; the new files are then the
      per-file results, in input order. */
  lemma BatchSucceedsIffEveryFileDoes(st: UploadState, files: seq<File>, exs: seq<Exchange>, now: int)
    requires |files| == |exs| && |files| > 0
    ensures var r := UploadFiles(st, files, exs, now);
      && (r.returned.NewFiles? <==>
            forall k :: 0 <= k < |files| ==> UploadToR2(files[k], exs[k], now).outcome.Uploaded?)
      && (r.returned.NewFiles? ==>
            |r.returned.files| == |files| &&
            forall k :: 0 <= k < |files| ==>
              UploadToR2(files[k], exs[k], now).outcome == Uploaded(r.returned.files[k]))
  {
    LoopSucceedsIffAll(Runs(files, exs, now), 0, |files|);
  }

  /** A failed batch reports the error of the first file that failed, every
      earlier file having succeeded. */
  lemma BatchReportsFirstFailure(st: UploadState, files: seq<File>, exs: seq<Exchange>, now: int)
    requires |files| == |exs| && |files| > 0
    ensures var r := UploadFiles(st, files, exs, now);
      r.returned.NullResult? ==>
        exists j: nat :: FirstFailureAt(Runs(files, exs, now), j, r.final.error.value)
  {
    LoopFailsAtFirst(Runs(files, exs, now), 0, |files|);
  }

  /** A batch stops at its first failing file: the files after it are
      never sent, so the answers the network would have given them change
      nothing the hook writes or returns, and the failing file's error is
      the one recorded. */
  lemma FailedBatchIgnoresLaterFiles(st: UploadState, files: seq<File>,
                                     exs: seq<Exchange>, exs2: seq<Exchange>,
                                     now: int, j: nat, m: string)
    requires |files| == |exs| == |exs2|
    requires FirstFailureAt(Runs(files, exs, now), j, m) && exs[..j + 1] == exs2[..j + 1]
    ensures UploadFiles(st, files, exs, now) == UploadFiles(st, files, exs2, now)
    ensures UploadFiles(st, files, exs, now).returned.NullResult?
    ensures UploadFiles(st, files, exs, now).final.error == Some(m)
  {
    var runs, runs2 := Runs(files, exs, now), Runs(files, exs2, now);
    forall k | 0 <= k < j + 1
      ensures runs[k] == runs2[k]
    {
      assert exs[k] == exs[..j + 1][k] == exs2[..j + 1][k] == exs2[k];
    }
    assert runs[..j + 1] == runs2[..j + 1];
    LoopStopsAtFirstFailure(runs, runs2, 0, |files|, j, m);
  }

  /** Between the start state and the final one, a batch writes exactly
      the loop's progress values, one state each, in order. */
  lemma BatchStatesFollowTrace(st: UploadState, files: seq<File>, exs: seq<Exchange>, now: int)
    requires |files| == |exs| && |files| > 0
    ensures var r := UploadFiles(st, files, exs, now);
      var t := Loop(Runs(files, exs, now), 0, |files|).trace;
      && |r.states| == |t| + 2
      && forall k :: 0 <= k < |t| ==> r.states[k + 1].progress == t[k]
  {
    var r := UploadFiles(st, files, exs, now);
    var t := Loop(Runs(files, exs, now), 0, |files|).trace;
    var running := Running(Started(st), t);
    assert r.states == [Started(st)] + running + [r.final];
    forall k | 0 <= k < |t|
      ensures r.states[k + 1].progress == t[k]
    {
      assert r.states[k + 1] == running[k];
    }
  }

  /** When every file uploads, every run succeeds after reporting 50 and
      then 100. */
  lemma RunsUploadFully(files: seq<File>, exs: seq<Exchange>, now: int)
    requires |files| == |exs|
    requires forall k :: 0 <= k < |files| ==> UploadToR2(files[k], exs[k], now).outcome.Uploaded?
    ensures EveryRunUploadsFully(Runs(files, exs, now))
  {
    var runs := Runs(files, exs, now);
    forall k | 0 <= k < |runs|
      ensures runs[k].outcome.Uploaded? && runs[k].progress == [50, 100]
    {
      assert runs[k] == UploadToR2(files[k], exs[k], now);
    }
    EveryRunUploadsFullyFromEach(runs);
  }

  /** States that carry a three-per-file trace, one value each after the
      start state, show each file's shares at positions 1 + 3k, 2 + 3k and
      3 + 3k. */
  lemma StatesShowShares(states: seq<UploadState>, t: seq<nat>, n: nat)
    requires n > 0 && ThreeShares(t, 0, n, n) && |states| == |t| + 2
    requires forall k :: 0 <= k < |t| ==> states[k + 1].progress == t[k]
    ensures forall k :: 0 <= k < n ==>
      && states[1 + 3 * k].progress == StartProgress(k, n)
      && states[2 + 3 * k].progress == CallbackProgress(k, n, 50)
      && states[3 + 3 * k].progress == StartProgress(k + 1, n)
  {
    forall k | 0 <= k < n
      ensures && states[1 + 3 * k].progress == StartProgress(k, n)
              && states[2 + 3 * k].progress == CallbackProgress(k, n, 50)
              && states[3 + 3 * k].progress == StartProgress(k + 1, n)
    {
      assert 0 + k == k;
      assert states[1 + 3 * k].progress == t[3 * k];
      assert states[2 + 3 * k].progress == t[3 * k + 1];
      assert states[3 + 3 * k].progress == t[3 * k + 2];
      assert 100 * k + 100 == 100 * (k + 1);
    }
  }

  /** Every file of a successful batch shows its share three times: when
      it starts, when half of it is sent, and when all of it is sent, the
      last being the next file's start share. */
  lemma SuccessfulBatchShowsEachShare(st: UploadState, files: seq<File>, exs: seq<Exchange>, now: int)
    requires |files| == |exs| && |files| > 0
    requires forall k :: 0 <= k < |files| ==> UploadToR2(files[k], exs[k], now).outcome.Uploaded?
    ensures var r := UploadFiles(st, files, exs, now);
      var n := |files|;
      && |r.states| == 3 * n + 2
      && forall k :: 0 <= k < n ==>
           && r.states[1 + 3 * k].progress == StartProgress(k, n)
           && r.states[2 + 3 * k].progress == CallbackProgress(k, n, 50)
           && r.states[3 + 3 * k].progress == StartProgress(k + 1, n)
  {
    var runs := Runs(files, exs, now);
    RunsUploadFully(files, exs, now);
    LoopTraceOfSuccess(runs, 0, |files|);
    BatchStatesFollowTrace(st, files, exs, now);
    StatesShowShares(UploadFiles(st, files, exs, now).states, Loop(runs, 0, |files|).trace, |files|);
  }

  /** The progress bar stays within 0..100 and never moves back during a
      batch; after a success it reads 100. */
  lemma BatchProgressNeverDecreases(st: UploadState, files: seq<File>, exs: seq<Exchange>, now: int)
    requires |files| == |exs| && |files| > 0
    ensures var r := UploadFiles(st, files, exs, now);
      && (forall k :: 0 <= k < |r.states| ==> r.states[k].progress <= 100)
      && (forall j, k :: 0 <= j < k < |r.states| ==> r.states[j].progress <= r.states[k].progress)
      && (r.returned.NewFiles? ==> r.final.progress == 100)
  {
    var n := |files|;
    var r := UploadFiles(st, files, exs, now);
    var runs := Runs(files, exs, now);
    var t := Loop(runs, 0, n).trace;
    EveryRunReportsHalfThenFull(runs);
    LoopTrace(runs, 0, n);
    RoundDivWhole(100, n);
    assert StartProgress(n, n) == 100;
    var s0 := Started(st);
    var running := Running(s0, t);
    assert r.states == [s0] + running + [r.final];
    assert |r.states| == |t| + 2;
    var finP := r.final.progress;
    assert finP <= 100 && forall k :: 0 <= k < |t| ==> t[k] <= finP;
    forall k | 0 <= k < |r.states|
      ensures r.states[k].progress == (if k == 0 then 0 else if k <= |t| then t[k - 1] else finP)
    {
      if 0 < k <= |t| {
        assert r.states[k] == running[k - 1];
      }
    }
  }

  /** `onProgress(100)` is called before the PUT's status is checked, so a
      one-file batch whose PUT is refused ends showing 100 beside its error. */
  lemma RefusedTransferStillShowsFullBar(st: UploadState, file: File, ex: Exchange, now: int)
    requires IsImageType(file.mimeType) && PresignAccepted(ex.presign)
    requires ex.transfer.TransferAnswered? && !ex.transfer.ok
    ensures var r := UploadFiles(st, [file], [ex], now);
      r.returned.NullResult? && r.final.progress == 100 && r.final.error.Some?
  {
    var run := UploadToR2(file, ex, now);
    assert run.progress == [50, 100] && run.outcome.Failed?;
    var steps := FileProgress(0, 1, run.progress);
    assert steps[2] == RoundDiv(100, 1) == 100;
    var pass := Loop(Runs([file], [ex], now), 0, 1);
    assert pass == Pass(steps, Err(run.outcome.message));
    var r := UploadFiles(st, [file], [ex], now);
    assert r.final.progress == steps[2];
  }
}
